=== FILE: README.md ===
# CoderCo ROI calculator — a Dafny model of its calculation and link codec

The calculator estimates the return on the CoderCo programme. It takes:

- the user's current salary;
- a target salary, either the typical outcome (£55,000) or one the user enters;
- the months until that salary is reached;
- a pricing plan: monthly at $199 a month, annual up front at $1,999, or three instalments of $799;
- other costs, in pounds;
- a USD→GBP rate, 0.8 by default.

From these it derives:

- the annual and monthly uplift;
- the programme cost in dollars and pounds, and the total cost;
- the payback time once the new salary starts;
- the break-even month counted from today;
- the net gain and ROI at 12, 24 and 36 months;
- a list of advisories.

The inputs can also be shared as a URL query string. A short key carries each field: `s o t m p k x fx`. Opening such a link rebuilds the inputs.

This project models both halves of `app.js`. It models the pure calculation: `programCostUsd`, `computeForTarget` and `compute`. It also models the state codec: `n`, `clampInt`, `stateToQueryParams` and the decoding part of `loadStateFromUrl`. It proves the properties these promise.

Modules:

- `Wrappers`: `Option`.
- `Inputs`: the calculator's state, the outcome mode, the plan and the default constants.
- `Pricing`: the plan prices and `ProgramCostUsd`.
- `Calculator`: advisories, payback, break-even, horizons, `ComputeForTarget` and `Compute`.
- `Numbers`: `Math.round`, `parseInt` truncation, `toFixed(4)` and the min/max clamp, over exact reals.
- `Query`: the query string as an ordered list of pairs, `URLSearchParams.get`, and the `n` and `parseInt` parsers.
- `Codec`: the key table, the encoder, `clampInt` and the decoder.
- `Links`: the laws that connect encoding, decoding and the calculation. These are the round trip, re-sharing stability, and the rule that a shared link reproduces the sender's estimate.

Modelling choices:

- Numbers are exact reals. JavaScript's `null` and non-finite values become `None`.
- A query value is either `Numeral(v)` or `Word(text)`:
  - `Numeral(v)` is a plain decimal numeral denoting `v`, with a digit before any decimal point. `String(x)` writes such a numeral for a whole number of magnitude below 10^21, and `toFixed` writes one for a value of magnitude below 10^21. `parseFloat` reads it as `v`, and `parseInt` reads it as `v` truncated toward zero.
  - `Word(text)` is text that neither function can read as a number. The type does not enforce this. A `Word` whose text is a numeral, such as `Word("7")`, stands for no real query value, because the query `m=7` is `Numeral(7)`.
- `Math.round(x)` is `floor(x + 0.5)`.
- `toFixed(4)` rounds the magnitude to four places, with ties away from zero.

One might expect a link to decode to the state it was made from, for every state whose months lie in the slider ranges and whose other costs are not negative. The code does not do this:

- The encoder leaves out `t` outside custom mode.
- It leaves out `k` outside the monthly plan.
- It rounds every amount to a whole number.
- It writes the rate with `toFixed(4)`.

The model follows the code. `Links.RoundTrip` states the round trip for the states a link can carry (`Codec.Shareable`), up to `Codec.Normalize`. `Normalize` resets the two fields the link leaves out. `Links.MonthsInProgramNotCarried` gives a state inside every range that does not come back unchanged.

## Model

| member | source | states |
|---|---|---|
| Pricing.ProgramCostUsd | app.js:287-291 | Monthly costs 199 × months; annual up front costs 1999 and instalments 3 × 799 = 2397; a monthly plan of at least one month costs at least one month's price |
| Pricing.CostIgnoresMonthsUnlessMonthly | app.js:287-291 | The month count changes only the monthly plan's cost |
| Pricing.MonthlyCostMonotone | app.js:287-288 | The monthly plan's cost does not fall as the number of months grows |
| Pricing.PlanComparison | app.js:62-67 | Up front is always cheaper than instalments; up front beats monthly from 11 months on, and monthly is cheaper up to 10 months |
| Calculator.NetAtHorizon | app.js:309-314 | Months of uplift are the larger of 0 and horizon − months to outcome; net + total cost = uplift months × monthly uplift; ROI is absent exactly when the total cost is not positive, and otherwise ROI × cost = net; without uplift the net is at most −cost |
| Calculator.Issues | app.js:296-322 | Advisories appear at most once and in the source's push order, and an advisory is present exactly when its condition holds (no salary; no valid target; salary given and uplift ≤ 0; monthly plan) |
| Calculator.Payback | app.js:306 | Payback is absent exactly when the monthly uplift is not positive; otherwise payback × monthly uplift = total cost, and it is non-negative exactly when the cost is |
| Calculator.ComputeForTarget | app.js:293-337 | Uplift = target − salary, missing values counting as 0; monthly uplift × 12 = uplift; the dollar cost is the plan's price; the pound cost is dollar cost × rate; total cost = pound cost + other costs; payback and break-even (= months to outcome + payback) exist exactly when the monthly uplift is positive; the three horizons at 12, 24 and 36 months; advisories in order and present exactly when they apply |
| Calculator.Compute | app.js:339-344 | The result carries the state's mode, and its calculation is `ComputeForTarget` for the user's target in custom mode and for £55,000 otherwise; typical mode measures the uplift to £55,000 and custom mode the uplift to the user's target; "Enter a valid target salary." appears exactly in custom mode without a target |
| Calculator.ResolvedTarget | app.js:339-344 | The target is the user's own in custom mode and £55,000 in typical mode |
| Calculator.MessagesDistinct | app.js:296-322 | The four advisory texts are pairwise different, so the advisory list and the list of texts the user sees determine each other |
| Calculator.BreakEvenIsWhereNetTurnsNonNegative | app.js:306-312 | With positive uplift and cost, the net gain at a horizon is non-negative exactly when the horizon is at or past the break-even month |
| Calculator.NetGrowsWithHorizon | app.js:309-312 | With a non-negative monthly uplift, a later horizon never shows a smaller net gain |
| Calculator.HorizonsOrdered | app.js:333-335 | With a non-negative uplift, net at 12 ≤ net at 24 ≤ net at 36 |
| Calculator.NoUpliftNoGain | app.js:306-307 | When the target does not exceed the salary there is no payback and no break-even, every horizon's net is at most −cost, and the "not higher" advisory is raised when a salary was entered |
| Calculator.ComputeIgnoresUnusedFields | app.js:287-344 | States that differ only in the custom target outside custom mode, or in the month count outside the monthly plan, give the same estimate |
| Calculator.TypicalMonthlyExample | app.js:293-337 | On £30,000 with the typical target, 9 months to outcome and 9 monthly payments: uplift £25,000, cost $1,791 = £1,432.80, payback 0.687744 months, net £4,817.20 at 12 months, and only the monthly-plan advisory |
| Calculator.AnnualUpfrontExample | app.js:302-304 | The up-front plan costs $1,999 = £1,599.20 at the default rate whatever the month count, and raises no advisory for a salary below the target |
| Numbers.Round | app.js:246-254 | `Math.round` lands within half a unit of its argument |
| Numbers.RoundInteger | app.js:246-254 | `Math.round` leaves whole numbers unchanged |
| Numbers.Truncate | app.js:139 | `parseInt` of a numeral drops the fraction toward zero |
| Numbers.TruncateInteger | app.js:139 | `parseInt` leaves whole numbers unchanged |
| Numbers.Fixed4 | app.js:255 | `toFixed(4)` yields a value with at most four decimals, within 0.00005 of the input, and a tie goes away from zero: up for a non-negative input, down for a negative one |
| Numbers.Fixed4Exact | app.js:255 | A rate that already has at most four decimals survives `toFixed(4)` unchanged |
| Numbers.Clamp | app.js:141 | `Math.min(hi, Math.max(lo, v))` lies in `[lo, hi]`, is the identity inside the range, and is the point of the range nearest to `v` |
| Query.Get | app.js:264-275 | `get` finds a value exactly when the key is present, and the value is paired with that key in the query |
| Query.GetAppend | app.js:264-275 | In a concatenation, `get` finds the first occurrence of a key |
| Query.ParseNumber | app.js:133-136 | `n` yields a number exactly for a numeral, and then that numeral's value; an absent key or a word yields none |
| Query.ParseInt | app.js:139-140 | `parseInt` yields a number exactly for a numeral, and then its value truncated toward zero |
| Query.ParsersAgree | app.js:133-140 | On the numerals the model represents, `n` and `clampInt`'s `parseInt` accept the same values and agree on whole numbers |
| Codec.KeyNamed | app.js:246-255 | Reading a key name back gives a key with that name |
| Codec.NameRoundTrip | app.js:246-255 | Every key is read back from its name |
| Codec.NameInjective | app.js:246-255 | No two keys share a name |
| Codec.KeyTableComplete | app.js:246-255 | The encoder's key table lists every key |
| Codec.PlanFromParam | app.js:272 | `p=a` decodes to the up-front plan, `p=i` to instalments, and anything else to monthly |
| Codec.PlanLetterRoundTrip | app.js:252-272 | Decoding a plan's letter gives the plan back |
| Codec.BuildGet | app.js:244-257 | Walking the key table, `get` on the result gives exactly the value written for each emitted key and nothing for the others |
| Codec.BuildPairs | app.js:244-257 | Every pair written comes from a key in the table that was emitted, with that key's value |
| Codec.BuildDistinct | app.js:244-257 | No key is written twice when the table lists each key once |
| Codec.StateToQueryParams | app.js:244-257 | For every key, `get` on the link gives that key's value exactly when the source's condition for writing it holds (`s` when a salary is given, `o` always, `t` in custom mode with a target, `m` always, `p` always, `k` on the monthly plan, `x` when other costs are positive, `fx` when the rate differs from 0.8), and nothing otherwise |
| Codec.EncodedShape | app.js:244-257 | The link holds each key at most once, and every pair is a key's correct value |
| Codec.ClampInt | app.js:138-142 | A value that does not parse gives the fallback; a parsed value is clamped into the range, is unchanged when already inside, and is the nearest point of the range |
| Codec.DecodeState | app.js:259-281 | An empty query is "no link"; otherwise the salary is `n` of `s`; `m` and `k` go through `clampInt` with ranges `[6, 12]` and `[1, 12]` and fallback 9, so both are whole numbers in range (`m=7` gives 7, `m=20` gives 12); the plan is read from `p`, so an unknown letter gives monthly; other costs are `n` of `x` or 0; the rate is `n` of `fx` or 0.8; the target is `n` of `t` in either mode; custom mode holds exactly when `o=c` and `t` parses; an absent `m`, `k`, `x`, `fx`, `s` or `p` gives 9, 9, 0, 0.8, no salary and monthly |
| Codec.BuildAgrees | app.js:244-257 | Two states that write the same keys with the same values produce the same link |
| Codec.ForeignKeysDecodeToDefaults | app.js:262-276 | A non-empty query with none of the calculator's keys opens on all the defaults |
| Codec.CustomWithoutTargetIsTypical | app.js:278-281 | `o=c` without a usable `t` opens in typical mode |
| Links.EmittedKeys | app.js:244-257 | A link always carries `o`, `m` and `p`, and carries `s`, `t`, `k`, `x` and `fx` exactly under the source's conditions |
| Links.EncodedLetters | app.js:247-252 | A link is never empty, and carries the mode letter `c`/`t` and the plan letter `a`/`i`/`m` |
| Links.EncodedNumerals | app.js:246-255 | The numerals a link carries: amounts and months rounded, as plain decimals for values of magnitude below 10^21, the rate through `toFixed(4)` |
| Links.DecodedSalaries | app.js:246-281 | Opening a link gives back the rounded salary, the custom mode only when a target was shared, and the rounded target in custom mode |
| Links.DecodedCosts | app.js:254-275 | Opening a link gives back positive other costs rounded (0 otherwise), and the rate through `toFixed(4)` unless it is the default |
| Links.DecodedPlanAndMonths | app.js:251-273 | For month counts below 10^21, opening a link gives back the plan, the months to outcome rounded then clamped to `[6, 12]`, and on the monthly plan the months in the programme rounded then clamped to `[1, 12]` (9 otherwise) |
| Links.DecodeOfEncode | app.js:244-281 | What a link made from any state with months below 10^21 opens as: amounts rounded, months rounded then clamped (20 comes back as 12), rate to four places, custom mode only with a target |
| Links.RoundTrip | app.js:244-281 | For a state with whole amounts, months in range, non-negative other costs, a four-place rate and a target in custom mode, decoding the link gives the state back, except for the two fields the link does not carry |
| Links.MonthsInProgramNotCarried | app.js:253-273 | A state inside every slider range whose link does not restore it: on an annual plan the month count comes back as 9 |
| Links.EncodeIgnoresDroppedFields | app.js:248-253 | Resetting the fields a link leaves out does not change the link |
| Links.ReshareIsStable | app.js:244-281 | Sharing again a link that was just opened gives the same link |
| Links.SharedLinkSameEstimate | app.js:244-344 | Opening a shared link computes the same estimate the sender saw |

## Left out

- The DOM side is not modelled. This covers reading the form (`readState`), writing it back (`applyStateToForm`), `setDefaults`, rendering, event wiring and `init`. They handle I/O and hold no calculation.
- Clipboard copying, the toast, `getShareBaseUrl` and the money, month and percentage formatters are not modelled. They present results and do not compute them.
- `window.location` is not modelled. The decoder takes the query string as a parameter. The step in `loadStateFromUrl` that applies the decoded state to the form is left out.
- Exact `parseFloat` and `parseInt` string behaviour is not modelled: exponents, leading whitespace, trailing garbage such as `12abc`, `Infinity` and `NaN` text. A query value is modelled as either a decimal numeral or a word that does not parse. So a value like `12abc`, which `parseFloat` reads as 12, is outside the model. So are numerals with no digit before the point, such as `.5`: `parseFloat` reads it as 0.5, while `parseInt` gives `NaN`, so `m=.5` opens with the fallback 9.
- IEEE-754 double rounding is not modelled: all arithmetic is exact. A real `0.1 + 0.2` may differ from the model in the last bit, and so may the four-place rate after `toFixed`.
- The state's `currency` field is not modelled. `readState` always sets it to `'GBP'`, and only the money formatter reads it.
- Of `URLSearchParams`, only three operations are modelled. `get` takes the first match for a key. `set` on a fresh object amounts to appending a new key. The emptiness test `[...qp.keys()].length === 0` becomes the length of the pair list.
- Writing the link as text and parsing it back are not modelled. The copy-link handler turns the pairs into text with `toString()` (app.js:477), and the decoder parses them from `window.location.href` (app.js:260-261). The round-trip lemmas hand the encoder's pair list straight to the decoder. They therefore assume that parsing the written query gives back the same pairs in the same order. That holds for every link the encoder writes. Every key is one of `s o t m p k x fx`. Every value of magnitude below 10^21 is a letter or a numeral made of digits, `-` and `.`, and URL form encoding leaves these characters unescaped. A value in exponent notation, such as `1e+21`, has its `+` escaped as `%2B`, and the URL parser restores it. Form encoding gives back any text it writes unchanged.
- Links.DecodeOfEncode: holds in the program only for month counts below 10^21. From 10^21 on, `String` writes a whole number in exponent notation, such as `1e+21`, and `parseInt` then reads only the leading digit. A 10^21-month wait therefore comes back as 6 rather than 12, and 10^21 months in the programme as 1. The model's numerals carry the exact value, so the lemma gives 12 for both. Amounts are unaffected, because `parseFloat` reads exponent notation.
- Links.EncodedNumerals: the program writes a value as a plain decimal only when its magnitude is below 10^21. From magnitude 10^21 on, `String` and `toFixed` write exponent notation, such as `1e+21` or `-1e+21`, which a `Numeral` does not represent. For amounts and the rate this changes nothing, because `parseFloat` reads the value back exactly. For `m` and `k` it matters: `parseInt` stops at the exponent.
- Links.DecodedPlanAndMonths: holds in the program only for month counts below 10^21, for the same reason as `Links.DecodeOfEncode`: `parseInt` reads `1e+21` as 1, so the wait comes back as 6 and the months in the programme as 1, where the lemma gives 12.

=== FILE: calculator.dfy ===
/** The ROI calculator: salary uplift, programme cost, payback, break-even and
    net gain / ROI at the 12, 24 and 36 month horizons. */
module Calculator {
  import opened Wrappers
  import opened Inputs
  import opened Pricing

  /** The advisories the calculator can raise, in the order it raises them. */
  datatype Issue = MissingCurrentSalary | InvalidTarget | TargetNotHigher | MonthlyPlanNotice

  const MissingSalaryText: string := "Enter your current annual salary."
  const InvalidTargetText: string := "Enter a valid target salary."
  const NotHigherText: string :=
    "Your target salary is not higher than your current salary, so payback/ROI won’t be meaningful."
  const MonthlyNoticeText: string :=
    "Monthly (Standard) is positioned for fundamentals + weekly mentoring. Full transformation requires Premium."

  /** The text shown to the user for each advisory. */
  function Message(i: Issue): string {
    match i
    case MissingCurrentSalary => MissingSalaryText
    case InvalidTarget => InvalidTargetText
    case TargetNotHigher => NotHigherText
    case MonthlyPlanNotice => MonthlyNoticeText
  }

  /** The advisories are told apart by their texts, so a list of advisories
      and the list of messages the user sees determine each other. */
  lemma MessagesDistinct(a: Issue, b: Issue)
    ensures Message(a) == Message(b) <==> a == b
  {
    if a != b {
      // the four texts have different lengths
      assert |MissingSalaryText| == 33 && |InvalidTargetText| == 28;
      assert |NotHigherText| == 94 && |MonthlyNoticeText| == 107;
    }
  }

  /** Position of an advisory in the fixed generation order. */
  function Rank(i: Issue): nat {
    match i
    case MissingCurrentSalary => 0
    case InvalidTarget => 1
    case TargetNotHigher => 2
    case MonthlyPlanNotice => 3
  }

  /** Each advisory appears at most once, and in generation order. */
  predicate InIssueOrder(issues: seq<Issue>) {
    forall i, j :: 0 <= i < j < |issues| ==> Rank(issues[i]) < Rank(issues[j])
  }

  /** When an advisory applies, stated independently of how the list is built. */
  predicate Applies(i: Issue, currentSalary: Option<real>, plan: Plan, target: Option<real>, uplift: real) {
    match i
    case MissingCurrentSalary => currentSalary.None?
    case InvalidTarget => target.None?
    case TargetNotHigher => currentSalary.Some? && uplift <= 0.0
    case MonthlyPlanNotice => plan == Monthly
  }

  /** Figures reported at one horizon. `roi` is `None` when there is no cost to
      divide by. */
  datatype Horizon = Horizon(monthsOfUplift: real, net: real, roi: Option<real>)

  /** Everything the calculator derives from one state and one target. */
  datatype Computation = Computation(
    issues: seq<Issue>,
    uplift: real,
    monthlyUplift: real,
    costUsd: real,
    programCostGbp: real,
    totalCostGbp: real,
    paybackAfterTarget: Option<real>,
    breakEvenFromToday: Option<real>,
    h12: Horizon,
    h24: Horizon,
    h36: Horizon)

  /** Net gain and ROI `horizonMonths` after the programme starts, when the
      uplift begins after `monthsToOutcome` months. */
  function NetAtHorizon(horizonMonths: real, monthsToOutcome: real, monthlyUplift: real, totalCost: real): (h: Horizon)
    ensures h.monthsOfUplift >= 0.0 && h.monthsOfUplift >= horizonMonths - monthsToOutcome
    ensures h.monthsOfUplift == 0.0 || h.monthsOfUplift == horizonMonths - monthsToOutcome
    ensures h.net + totalCost == h.monthsOfUplift * monthlyUplift
    ensures h.roi.None? <==> totalCost <= 0.0
    ensures h.roi.Some? ==> h.roi.value * totalCost == h.net
    ensures monthlyUplift <= 0.0 ==> h.net <= -totalCost
  {
    var monthsOfUplift := if horizonMonths - monthsToOutcome > 0.0 then horizonMonths - monthsToOutcome else 0.0;
    var net := monthsOfUplift * monthlyUplift - totalCost;
    var roi := if totalCost > 0.0 then Some(net / totalCost) else None;
    Horizon(monthsOfUplift, net, roi)
  }

  /** The advisories for one calculation, in generation order: the two
      missing-input checks, then the "not higher" check, then the plan notice. */
  function Issues(currentSalary: Option<real>, plan: Plan, target: Option<real>, uplift: real): (issues: seq<Issue>)
    ensures InIssueOrder(issues)
    ensures forall i :: i in issues <==> Applies(i, currentSalary, plan, target, uplift)
  {
    var missingSalary := if currentSalary.None? then [MissingCurrentSalary] else [];
    var badTarget := if target.None? then [InvalidTarget] else [];
    var notHigher := if currentSalary.Some? && uplift <= 0.0 then [TargetNotHigher] else [];
    var monthlyNotice := if plan == Monthly then [MonthlyPlanNotice] else [];
    missingSalary + badTarget + notHigher + monthlyNotice
  }

  /** Months of uplift needed to cover the total cost, when there is an
      uplift to cover it with. */
  function Payback(monthlyUplift: real, totalCost: real): (p: Option<real>)
    ensures p.None? <==> monthlyUplift <= 0.0
    ensures p.Some? ==> p.value * monthlyUplift == totalCost
    ensures p.Some? ==> (p.value >= 0.0 <==> totalCost >= 0.0)
  {
    if monthlyUplift > 0.0 then Some(totalCost / monthlyUplift) else None
  }

  /** The calculation for one state and one (possibly missing) target salary. */
  function ComputeForTarget(state: State, target: Option<real>): (c: Computation)
    ensures c.uplift == target.GetOr(0.0) - state.currentSalary.GetOr(0.0)
    ensures c.monthlyUplift * 12.0 == c.uplift
    ensures c.costUsd == ProgramCostUsd(state.planType, state.monthsInProgram)
    ensures c.programCostGbp == c.costUsd * state.usdToGbp
    ensures c.totalCostGbp == c.programCostGbp + state.otherCostsGbp
    // payback: the months of uplift whose sum covers the total cost
    ensures c.paybackAfterTarget.None? <==> c.monthlyUplift <= 0.0
    ensures c.paybackAfterTarget.Some? ==> c.paybackAfterTarget.value * c.monthlyUplift == c.totalCostGbp
    // break-even: counted from today rather than from when the uplift starts
    ensures c.breakEvenFromToday.None? <==> c.paybackAfterTarget.None?
    ensures c.breakEvenFromToday.Some? ==>
              c.breakEvenFromToday.value == state.monthsToOutcome + c.paybackAfterTarget.value
    ensures c.h12 == NetAtHorizon(12.0, state.monthsToOutcome, c.monthlyUplift, c.totalCostGbp)
    ensures c.h24 == NetAtHorizon(24.0, state.monthsToOutcome, c.monthlyUplift, c.totalCostGbp)
    ensures c.h36 == NetAtHorizon(36.0, state.monthsToOutcome, c.monthlyUplift, c.totalCostGbp)
    ensures InIssueOrder(c.issues)
    ensures forall i :: i in c.issues <==> Applies(i, state.currentSalary, state.planType, target, c.uplift)
  {
    Calculate(state.currentSalary, target, state.monthsToOutcome, state.planType,
              ProgramCostUsd(state.planType, state.monthsInProgram), state.usdToGbp, state.otherCostsGbp)
  }

  /** `computeForTarget` once the plan has been priced: the calculation reads
      nothing else of the state. */
  function Calculate(currentSalary: Option<real>, target: Option<real>, monthsToOutcome: real, plan: Plan,
                     costUsd: real, usdToGbp: real, otherCostsGbp: real): Computation
  {
    var uplift := target.GetOr(0.0) - currentSalary.GetOr(0.0);
    var monthlyUplift := uplift / 12.0;
    var programCostGbp := costUsd * usdToGbp;
    var totalCostGbp := programCostGbp + otherCostsGbp;
    var payback := Payback(monthlyUplift, totalCostGbp);
    var breakEven := if payback.None? then None else Some(monthsToOutcome + payback.value);
    Computation(
      Issues(currentSalary, plan, target, uplift),
      uplift, monthlyUplift, costUsd, programCostGbp, totalCostGbp, payback, breakEven,
      NetAtHorizon(12.0, monthsToOutcome, monthlyUplift, totalCostGbp),
      NetAtHorizon(24.0, monthsToOutcome, monthlyUplift, totalCostGbp),
      NetAtHorizon(36.0, monthsToOutcome, monthlyUplift, totalCostGbp))
  }

  /** The target the estimate uses: the user's own in custom mode, the typical
      one otherwise. */
  function ResolvedTarget(state: State): (target: Option<real>)
    ensures state.outcomeMode == Custom ==> target == state.customTarget
    ensures state.outcomeMode == Typical ==> target == Some(TypicalTargetGbp)
  {
    if state.outcomeMode == Custom then state.customTarget else Some(TypicalTargetGbp)
  }

  /** The calculator's result, tagged with the outcome mode it was computed in. */
  datatype Estimate = Estimate(mode: OutcomeMode, single: Computation)

  /** The top-level calculation. */
  function Compute(state: State): (e: Estimate)
    ensures e.mode == state.outcomeMode
    ensures e.single == ComputeForTarget(state, if state.outcomeMode == Custom then state.customTarget else Some(TypicalTargetGbp))
    ensures state.outcomeMode == Typical ==>
              e.single.uplift == TypicalTargetGbp - state.currentSalary.GetOr(0.0)
    ensures state.outcomeMode == Custom ==>
              e.single.uplift == state.customTarget.GetOr(0.0) - state.currentSalary.GetOr(0.0)
    ensures InvalidTarget in e.single.issues <==> state.outcomeMode == Custom && state.customTarget.None?
  {
    Estimate(state.outcomeMode, ComputeForTarget(state, ResolvedTarget(state)))
  }

  /** Break-even is the first horizon at which the net gain stops being
      negative: with a positive uplift and a positive cost, the net gain at a
      horizon is non-negative exactly from `monthsToOutcome` plus the payback
      time on. */
  lemma BreakEvenIsWhereNetTurnsNonNegative(monthsToOutcome: real, monthlyUplift: real, totalCost: real, horizonMonths: real)
    requires monthlyUplift > 0.0 && totalCost > 0.0
    ensures Payback(monthlyUplift, totalCost).Some?
    ensures NetAtHorizon(horizonMonths, monthsToOutcome, monthlyUplift, totalCost).net >= 0.0
            <==> horizonMonths >= monthsToOutcome + Payback(monthlyUplift, totalCost).value
  {
    var p := Payback(monthlyUplift, totalCost).value;
    var d := horizonMonths - monthsToOutcome;
    var net := NetAtHorizon(horizonMonths, monthsToOutcome, monthlyUplift, totalCost).net;
    assert p > 0.0;
    if d > 0.0 {
      assert net == d * monthlyUplift - p * monthlyUplift;
      ScaledDifference(d, p, monthlyUplift);
    } else {
      assert net == -totalCost;
    }
  }

  /** For a positive scale, scaling preserves which of two values is larger. */
  lemma ScaledDifference(d: real, p: real, m: real)
    requires m > 0.0
    ensures d * m - p * m >= 0.0 <==> d >= p
  {
    assert d * m - p * m == (d - p) * m;
    if d >= p {
      assert (d - p) * m >= 0.0;
    } else {
      PositiveProduct(p - d, m);
    }
  }

  lemma PositiveProduct(a: real, b: real)
    requires a > 0.0 && b > 0.0
    ensures a * b > 0.0
  {
  }

  /** With a non-negative uplift, the net gain never falls as the horizon moves
      out. */
  lemma NetGrowsWithHorizon(monthsToOutcome: real, monthlyUplift: real, totalCost: real, h1: real, h2: real)
    requires monthlyUplift >= 0.0
    requires h1 <= h2
    ensures NetAtHorizon(h1, monthsToOutcome, monthlyUplift, totalCost).net
            <= NetAtHorizon(h2, monthsToOutcome, monthlyUplift, totalCost).net
  {
    var a := NetAtHorizon(h1, monthsToOutcome, monthlyUplift, totalCost);
    var b := NetAtHorizon(h2, monthsToOutcome, monthlyUplift, totalCost);
    assert a.monthsOfUplift <= b.monthsOfUplift;
    assert (b.monthsOfUplift - a.monthsOfUplift) * monthlyUplift >= 0.0;
  }

  /** The three reported horizons are ordered when the uplift is non-negative. */
  lemma HorizonsOrdered(state: State, target: Option<real>)
    requires ComputeForTarget(state, target).monthlyUplift >= 0.0
    ensures ComputeForTarget(state, target).h12.net <= ComputeForTarget(state, target).h24.net
    ensures ComputeForTarget(state, target).h24.net <= ComputeForTarget(state, target).h36.net
  {
    var c := ComputeForTarget(state, target);
    NetGrowsWithHorizon(state.monthsToOutcome, c.monthlyUplift, c.totalCostGbp, 12.0, 24.0);
    NetGrowsWithHorizon(state.monthsToOutcome, c.monthlyUplift, c.totalCostGbp, 24.0, 36.0);
  }

  /** A target that is not above the current salary makes every horizon lose
      at least the whole cost, and raises the "not higher" advisory when the
      current salary is known. */
  lemma NoUpliftNoGain(state: State, target: Option<real>)
    requires ComputeForTarget(state, target).uplift <= 0.0
    ensures ComputeForTarget(state, target).paybackAfterTarget.None?
    ensures ComputeForTarget(state, target).breakEvenFromToday.None?
    ensures ComputeForTarget(state, target).h12.net <= -ComputeForTarget(state, target).totalCostGbp
    ensures ComputeForTarget(state, target).h24.net <= -ComputeForTarget(state, target).totalCostGbp
    ensures ComputeForTarget(state, target).h36.net <= -ComputeForTarget(state, target).totalCostGbp
    ensures state.currentSalary.Some? ==> TargetNotHigher in ComputeForTarget(state, target).issues
  {
  }

  /** The result of `Compute` does not depend on the fields the estimate does
      not read: the custom target outside custom mode and the month count
      outside the monthly plan. */
  lemma ComputeIgnoresUnusedFields(s1: State, s2: State)
    requires s1.currentSalary == s2.currentSalary && s1.outcomeMode == s2.outcomeMode
    requires s1.monthsToOutcome == s2.monthsToOutcome && s1.planType == s2.planType
    requires s1.otherCostsGbp == s2.otherCostsGbp && s1.usdToGbp == s2.usdToGbp
    requires s1.outcomeMode == Custom ==> s1.customTarget == s2.customTarget
    requires s1.planType == Monthly ==> s1.monthsInProgram == s2.monthsInProgram
    ensures Compute(s1) == Compute(s2)
  {
    if s1.planType != Monthly {
      CostIgnoresMonthsUnlessMonthly(s1.planType, s1.monthsInProgram, s2.monthsInProgram);
    }
    SameReadSameComputation(s1, s2, ResolvedTarget(s1));
  }

  /** `ComputeForTarget` reads the month count only through the cost. */
  lemma SameReadSameComputation(s1: State, s2: State, target: Option<real>)
    requires s1.currentSalary == s2.currentSalary && s1.monthsToOutcome == s2.monthsToOutcome
    requires s1.planType == s2.planType && s1.otherCostsGbp == s2.otherCostsGbp && s1.usdToGbp == s2.usdToGbp
    requires ProgramCostUsd(s1.planType, s1.monthsInProgram) == ProgramCostUsd(s2.planType, s2.monthsInProgram)
    ensures ComputeForTarget(s1, target) == ComputeForTarget(s2, target)
  {
  }

  /** An example: £30,000 now, typical target, nine months to the
      outcome, nine months on the monthly plan at the default rate. */
  lemma TypicalMonthlyExample()
    ensures var c := Compute(State(Some(30000.0), Typical, None, 9.0, Monthly, 9.0, 0.0, DefaultUsdToGbp)).single;
      && c.uplift == 25000.0
      && c.costUsd == 1791.0
      && c.programCostGbp == 1432.8
      && c.totalCostGbp == 1432.8
      && c.paybackAfterTarget == Some(0.687744)
      && c.h12.monthsOfUplift == 3.0
      && c.h12.net == 4817.2
      && c.h24.monthsOfUplift == 15.0
      && c.issues == [MonthlyPlanNotice]
  {
  }

  /** The annual upfront plan costs 1999 USD, 1599.20 GBP at the default rate,
      whatever month count the form holds. */
  lemma AnnualUpfrontExample(monthsInProgram: real)
    ensures var c := Compute(State(Some(30000.0), Typical, None, 9.0, AnnualUpfront, monthsInProgram, 0.0, DefaultUsdToGbp)).single;
      && c.costUsd == 1999.0
      && c.programCostGbp == 1599.2
      && c.issues == []
  {
  }
}

=== FILE: codec.dfy ===
/** The share-link codec: a state to short query keys and back. */
module Codec {
  import opened Wrappers
  import opened Numbers
  import opened Inputs
  import opened Query

  /** The calculator's query keys. */
  datatype Key = SalaryKey | OutcomeKey | TargetKey | MonthsToOutcomeKey
               | PlanKey | MonthsInProgramKey | OtherCostsKey | RateKey

  /** The short name each key has in the URL. */
  function Name(k: Key): string {
    match k
    case SalaryKey => "s"
    case OutcomeKey => "o"
    case TargetKey => "t"
    case MonthsToOutcomeKey => "m"
    case PlanKey => "p"
    case MonthsInProgramKey => "k"
    case OtherCostsKey => "x"
    case RateKey => "fx"
  }

  /** The key a URL name stands for, if any: the inverse of `Name`. */
  function KeyNamed(n: string): (k: Option<Key>)
    ensures k.Some? ==> Name(k.value) == n
  {
    if n == "s" then Some(SalaryKey)
    else if n == "o" then Some(OutcomeKey)
    else if n == "t" then Some(TargetKey)
    else if n == "m" then Some(MonthsToOutcomeKey)
    else if n == "p" then Some(PlanKey)
    else if n == "k" then Some(MonthsInProgramKey)
    else if n == "x" then Some(OtherCostsKey)
    else if n == "fx" then Some(RateKey)
    else None
  }

  /** Every key's name reads back as that key, so no two keys share a name. */
  lemma NameRoundTrip(k: Key)
    ensures KeyNamed(Name(k)) == Some(k)
  {
  }

  lemma NameInjective(a: Key, b: Key)
    ensures Name(a) == Name(b) ==> a == b
  {
    NameRoundTrip(a);
    NameRoundTrip(b);
  }

  /** The keys in the order the link writes them. */
  const KeyTable: seq<Key> := [SalaryKey, OutcomeKey, TargetKey, MonthsToOutcomeKey,
                               PlanKey, MonthsInProgramKey, OtherCostsKey, RateKey]

  /** The table lists every key. */
  lemma KeyTableComplete(k: Key)
    ensures k in KeyTable
  {
    match k
    case SalaryKey => assert KeyTable[0] == k;
    case OutcomeKey => assert KeyTable[1] == k;
    case TargetKey => assert KeyTable[2] == k;
    case MonthsToOutcomeKey => assert KeyTable[3] == k;
    case PlanKey => assert KeyTable[4] == k;
    case MonthsInProgramKey => assert KeyTable[5] == k;
    case OtherCostsKey => assert KeyTable[6] == k;
    case RateKey => assert KeyTable[7] == k;
  }

  predicate Distinct<T(==)>(xs: seq<T>) {
    forall i, j :: 0 <= i < j < |xs| ==> xs[i] != xs[j]
  }

  function OutcomeLetter(mode: OutcomeMode): string {
    if mode == Custom then "c" else "t"
  }

  function PlanLetter(plan: Plan): string {
    match plan
    case AnnualUpfront => "a"
    case AnnualInstallments => "i"
    case Monthly => "m"
  }

  /** Reads the `p` value back; anything but `a` or `i` means the monthly plan. */
  function PlanFromParam(p: Option<Param>): (plan: Plan)
    ensures plan == AnnualUpfront <==> p == Some(Word("a"))
    ensures plan == AnnualInstallments <==> p == Some(Word("i"))
  {
    if p == Some(Word("a")) then AnnualUpfront
    else if p == Some(Word("i")) then AnnualInstallments
    else Monthly
  }

  /** The plan letters are read back as the plan they were written for. */
  lemma PlanLetterRoundTrip(plan: Plan)
    ensures PlanFromParam(Some(Word(PlanLetter(plan)))) == plan
  {
  }

  /** Whether the link carries `key` for state `s`. */
  predicate Emits(s: State, key: Key) {
    match key
    case SalaryKey => s.currentSalary.Some?
    case OutcomeKey => true
    case TargetKey => s.outcomeMode == Custom && s.customTarget.Some?
    case MonthsToOutcomeKey => true
    case PlanKey => true
    case MonthsInProgramKey => s.planType == Monthly
    case OtherCostsKey => s.otherCostsGbp > 0.0
    case RateKey => s.usdToGbp != DefaultUsdToGbp
  }

  /** The value the link writes under `key`: whole numbers rounded with
      `Math.round`, the exchange rate to four places, the letters for mode and
      plan. */
  function ValueFor(s: State, key: Key): Param {
    match key
    case SalaryKey => Numeral(Round(s.currentSalary.GetOr(0.0)) as real)
    case OutcomeKey => Word(OutcomeLetter(s.outcomeMode))
    case TargetKey => Numeral(Round(s.customTarget.GetOr(0.0)) as real)
    case MonthsToOutcomeKey => Numeral(Round(s.monthsToOutcome) as real)
    case PlanKey => Word(PlanLetter(s.planType))
    case MonthsInProgramKey => Numeral(Round(s.monthsInProgram) as real)
    case OtherCostsKey => Numeral(Round(s.otherCostsGbp) as real)
    case RateKey => Numeral(Fixed4(s.usdToGbp))
  }

  /** Writes the emitted keys of `keys`, in order. */
  function Build(s: State, keys: seq<Key>): Params {
    if |keys| == 0 then []
    else
      var head := if Emits(s, keys[0]) then [(Name(keys[0]), ValueFor(s, keys[0]))] else [];
      head + Build(s, keys[1..])
  }

  /** Looking a key up in the built query finds exactly the emitted value. */
  lemma {:induction false} BuildGet(s: State, keys: seq<Key>, key: Key)
    ensures Get(Build(s, keys), Name(key)) == if key in keys && Emits(s, key) then Some(ValueFor(s, key)) else None
  {
    if |keys| > 0 {
      var head := if Emits(s, keys[0]) then [(Name(keys[0]), ValueFor(s, keys[0]))] else [];
      GetAppend(head, Build(s, keys[1..]), Name(key));
      BuildGet(s, keys[1..], key);
      NameInjective(keys[0], key);
      assert key in keys <==> key == keys[0] || key in keys[1..];
    }
  }

  /** Every pair of the built query is an emitted key of `keys` with its
      value. */
  lemma {:induction false} BuildPairs(s: State, keys: seq<Key>)
    ensures forall i :: 0 <= i < |Build(s, keys)| ==> BuiltFrom(s, keys, Build(s, keys)[i])
  {
    if |keys| > 0 {
      var head := if Emits(s, keys[0]) then [(Name(keys[0]), ValueFor(s, keys[0]))] else [];
      var rest := Build(s, keys[1..]);
      BuildPairs(s, keys[1..]);
      forall i | 0 <= i < |head + rest|
        ensures BuiltFrom(s, keys, (head + rest)[i])
      {
        if i < |head| {
          NameRoundTrip(keys[0]);
        } else {
          assert BuiltFrom(s, keys[1..], rest[i - |head|]);
        }
      }
    }
  }

  /** `pair` is the entry an emitted key of `keys` writes. */
  predicate BuiltFrom(s: State, keys: seq<Key>, pair: (string, Param)) {
    && KeyNamed(pair.0).Some?
    && KeyNamed(pair.0).value in keys
    && Emits(s, KeyNamed(pair.0).value)
    && pair.1 == ValueFor(s, KeyNamed(pair.0).value)
  }

  /** Built from distinct keys, the query never repeats a name. */
  lemma {:induction false} BuildDistinct(s: State, keys: seq<Key>)
    requires Distinct(keys)
    ensures Distinct(KeysOf(Build(s, keys)))
  {
    if |keys| > 0 {
      var head := if Emits(s, keys[0]) then [(Name(keys[0]), ValueFor(s, keys[0]))] else [];
      var rest := Build(s, keys[1..]);
      assert Distinct(keys[1..]) by {
        forall i, j | 0 <= i < j < |keys[1..]| ensures keys[1..][i] != keys[1..][j] {
          assert keys[1..][i] == keys[i + 1] && keys[1..][j] == keys[j + 1];
        }
      }
      BuildDistinct(s, keys[1..]);
      BuildPairs(s, keys[1..]);
      KeysOfAppend(head, rest);
      forall j | 0 <= j < |rest|
        ensures rest[j].0 != Name(keys[0])
      {
        assert BuiltFrom(s, keys[1..], rest[j]);
        var k := KeyNamed(rest[j].0).value;
        var m :| 0 <= m < |keys[1..]| && keys[1..][m] == k;
        assert keys[m + 1] == k;
        NameInjective(k, keys[0]);
      }
      assert Build(s, keys) == head + rest;
    }
  }

  function KeysOf(q: Params): (names: seq<string>)
    ensures |names| == |q|
    ensures forall i :: 0 <= i < |q| ==> names[i] == q[i].0
  {
    seq(|q|, i requires 0 <= i < |q| => q[i].0)
  }

  lemma KeysOfAppend(a: Params, b: Params)
    ensures KeysOf(a + b) == KeysOf(a) + KeysOf(b)
  {
  }

  /** `stateToQueryParams`: the link's query for state `s`. A key is present
      exactly when it is emitted, and holds the value the table gives it. */
  function StateToQueryParams(s: State): (q: Params)
    ensures forall k :: Get(q, Name(k)) == if Emits(s, k) then Some(ValueFor(s, k)) else None
  {
    var q := Build(s, KeyTable);
    forall k
      ensures Get(q, Name(k)) == if Emits(s, k) then Some(ValueFor(s, k)) else None
    {
      BuildGet(s, KeyTable, k);
      KeyTableComplete(k);
    }
    q
  }

  /** The link holds nothing but the calculator's keys, each at most once:
      every pair is an emitted key with the value the table gives it. */
  lemma EncodedShape(s: State)
    ensures Distinct(KeysOf(StateToQueryParams(s)))
    ensures forall i :: 0 <= i < |StateToQueryParams(s)| ==> BuiltFrom(s, KeyTable, StateToQueryParams(s)[i])
  {
    BuildPairs(s, KeyTable);
    BuildDistinct(s, KeyTable);
  }

  /** `clampInt`: the parsed integer forced into `[lo, hi]`, or `fallback`
      when the value does not parse. */
  function ClampInt(p: Option<Param>, lo: int, hi: int, fallback: int): (r: int)
    ensures ParseInt(p).None? ==> r == fallback
    ensures ParseInt(p).Some? && lo <= hi ==> lo <= r <= hi
    ensures ParseInt(p).Some? && lo <= ParseInt(p).value <= hi ==> r == ParseInt(p).value
    ensures ParseInt(p).Some? && lo <= hi ==>
              forall w :: lo <= w <= hi ==> Dist(r, ParseInt(p).value) <= Dist(w, ParseInt(p).value)
  {
    match ParseInt(p)
    case None => fallback
    case Some(v) => Clamp(v, lo, hi)
  }

  /** The decoding half of `loadStateFromUrl`: `None` when the query is empty
      (no state in the link), otherwise the state it describes, with the
      months clamped, defaults for what is absent, and custom mode dropped when
      there is no usable target. */
  function DecodeState(q: Params): (r: Option<State>)
    ensures r.None? <==> |q| == 0
    ensures r.Some? ==> var s := r.value;
      && IsInteger(s.monthsToOutcome) && 6.0 <= s.monthsToOutcome <= 12.0
      && IsInteger(s.monthsInProgram) && 1.0 <= s.monthsInProgram <= 12.0
      && (s.outcomeMode == Custom ==> s.customTarget.Some?)
      && (s.outcomeMode == Custom <==> Get(q, Name(OutcomeKey)) == Some(Word("c")) && ParseNumber(Get(q, Name(TargetKey))).Some?)
      && s.customTarget == ParseNumber(Get(q, Name(TargetKey)))
      && s.currentSalary == ParseNumber(Get(q, Name(SalaryKey)))
      && s.monthsToOutcome == ClampInt(Get(q, Name(MonthsToOutcomeKey)), 6, 12, 9) as real
      && s.planType == PlanFromParam(Get(q, Name(PlanKey)))
      && s.monthsInProgram == ClampInt(Get(q, Name(MonthsInProgramKey)), 1, 12, 9) as real
      && s.otherCostsGbp == ParseNumber(Get(q, Name(OtherCostsKey))).GetOr(0.0)
      && s.usdToGbp == ParseNumber(Get(q, Name(RateKey))).GetOr(DefaultUsdToGbp)
      && (!HasKey(q, Name(MonthsToOutcomeKey)) ==> s.monthsToOutcome == 9.0)
      && (!HasKey(q, Name(MonthsInProgramKey)) ==> s.monthsInProgram == 9.0)
      && (!HasKey(q, Name(OtherCostsKey)) ==> s.otherCostsGbp == 0.0)
      && (!HasKey(q, Name(RateKey)) ==> s.usdToGbp == DefaultUsdToGbp)
      && (!HasKey(q, Name(SalaryKey)) ==> s.currentSalary.None?)
      && (!HasKey(q, Name(PlanKey)) ==> s.planType == Monthly)
  {
    if |q| == 0 then None
    else
      var loaded := State(
        ParseNumber(Get(q, Name(SalaryKey))),
        if Get(q, Name(OutcomeKey)) == Some(Word("c")) then Custom else Typical,
        ParseNumber(Get(q, Name(TargetKey))),
        ClampInt(Get(q, Name(MonthsToOutcomeKey)), 6, 12, 9) as real,
        PlanFromParam(Get(q, Name(PlanKey))),
        ClampInt(Get(q, Name(MonthsInProgramKey)), 1, 12, 9) as real,
        ParseNumber(Get(q, Name(OtherCostsKey))).GetOr(0.0),
        ParseNumber(Get(q, Name(RateKey))).GetOr(DefaultUsdToGbp));
      if loaded.outcomeMode == Custom && loaded.customTarget.None? then
        Some(loaded.(outcomeMode := Typical))
      else
        Some(loaded)
  }

  /** The states a link reproduces: whole-pound amounts, months inside the
      slider ranges, a rate with at most four decimals, and a target whenever
      the mode is custom. */
  predicate Shareable(s: State) {
    && (s.currentSalary.Some? ==> IsInteger(s.currentSalary.value))
    && (s.outcomeMode == Custom ==> s.customTarget.Some? && IsInteger(s.customTarget.value))
    && IsInteger(s.monthsToOutcome) && 6.0 <= s.monthsToOutcome <= 12.0
    && (s.planType == Monthly ==> IsInteger(s.monthsInProgram) && 1.0 <= s.monthsInProgram <= 12.0)
    && IsInteger(s.otherCostsGbp) && s.otherCostsGbp >= 0.0
    && IsFourPlaces(s.usdToGbp)
  }

  /** `s` with the fields a link does not carry put back to what decoding
      gives them: no custom target outside custom mode, and the default month
      count outside the monthly plan. */
  function Normalize(s: State): State {
    s.(customTarget := if s.outcomeMode == Custom then s.customTarget else None,
       monthsInProgram := if s.planType == Monthly then s.monthsInProgram else 9.0)
  }

  /** Two states that emit the same keys with the same values build the same
      query. */
  lemma {:induction false} BuildAgrees(s1: State, s2: State, keys: seq<Key>)
    requires forall k :: k in keys ==> Emits(s1, k) == Emits(s2, k)
    requires forall k :: k in keys && Emits(s1, k) ==> ValueFor(s1, k) == ValueFor(s2, k)
    ensures Build(s1, keys) == Build(s2, keys)
  {
    if |keys| > 0 {
      assert keys[0] in keys;
      assert forall k :: k in keys[1..] ==> k in keys;
      BuildAgrees(s1, s2, keys[1..]);
    }
  }

  /** A link whose query holds none of the calculator's keys still counts as a
      link, and opens on the defaults. */
  lemma ForeignKeysDecodeToDefaults(q: Params)
    requires |q| > 0
    requires forall k :: !HasKey(q, Name(k))
    ensures DecodeState(q) == Some(State(None, Typical, None, 9.0, Monthly, 9.0, 0.0, DefaultUsdToGbp))
  {
    assert !HasKey(q, Name(SalaryKey)) && !HasKey(q, Name(OutcomeKey)) && !HasKey(q, Name(TargetKey));
    assert !HasKey(q, Name(MonthsToOutcomeKey)) && !HasKey(q, Name(PlanKey));
    assert !HasKey(q, Name(MonthsInProgramKey)) && !HasKey(q, Name(OtherCostsKey)) && !HasKey(q, Name(RateKey));
  }

  /** `o=c` with no usable `t` opens in typical mode. */
  lemma CustomWithoutTargetIsTypical(q: Params)
    requires Get(q, Name(OutcomeKey)) == Some(Word("c"))
    requires ParseNumber(Get(q, Name(TargetKey))).None?
    ensures DecodeState(q).Some? && DecodeState(q).value.outcomeMode == Typical
  {
  }
}

=== FILE: inputs.dfy ===
/** The calculator's input record and the constants shared by the calculator
    and the link codec. */
module Inputs {
  import opened Wrappers

  /** Whether the estimate uses the fixed typical target or the user's own. */
  datatype OutcomeMode = Typical | Custom

  /** The three pricing plans. */
  datatype Plan = Monthly | AnnualUpfront | AnnualInstallments

  /** Default USD to GBP exchange rate assumption. */
  const DefaultUsdToGbp: real := 0.8

  /** Target salary of the typical outcome model, in GBP per year. */
  const TypicalTargetGbp: real := 55000.0

  /** One snapshot of the form. Salaries and costs are GBP amounts; a missing
      or unparsable salary is `None`. The two month counts are plain numbers:
      the form does not clamp them, only a decoded link does. */
  datatype State = State(
    currentSalary: Option<real>,
    outcomeMode: OutcomeMode,
    customTarget: Option<real>,
    monthsToOutcome: real,
    planType: Plan,
    monthsInProgram: real,
    otherCostsGbp: real,
    usdToGbp: real)
}

=== FILE: links.dfy ===
/** Laws linking the two halves of the codec: what a shared link carries and
    what opening it restores. */
module Links {
  import opened Wrappers
  import opened Numbers
  import opened Inputs
  import opened Query
  import opened Codec
  import Calculator

  /** Which keys a link carries: mode, months to outcome and plan always; the
      others only under their conditions. */
  lemma EmittedKeys(s: State)
    ensures HasKey(StateToQueryParams(s), Name(OutcomeKey))
    ensures HasKey(StateToQueryParams(s), Name(MonthsToOutcomeKey))
    ensures HasKey(StateToQueryParams(s), Name(PlanKey))
    ensures HasKey(StateToQueryParams(s), Name(SalaryKey)) <==> s.currentSalary.Some?
    ensures HasKey(StateToQueryParams(s), Name(TargetKey)) <==> s.outcomeMode == Custom && s.customTarget.Some?
    ensures HasKey(StateToQueryParams(s), Name(MonthsInProgramKey)) <==> s.planType == Monthly
    ensures HasKey(StateToQueryParams(s), Name(OtherCostsKey)) <==> s.otherCostsGbp > 0.0
    ensures HasKey(StateToQueryParams(s), Name(RateKey)) <==> s.usdToGbp != DefaultUsdToGbp
  {
    EncodedLetters(s);
    EncodedNumerals(s);
  }

  /** The link always carries the mode and the plan letters. */
  lemma EncodedLetters(s: State)
    ensures var q := StateToQueryParams(s);
      && |q| > 0
      && Get(q, Name(OutcomeKey)) == Some(Word(OutcomeLetter(s.outcomeMode)))
      && Get(q, Name(PlanKey)) == Some(Word(PlanLetter(s.planType)))
  {
    var q := StateToQueryParams(s);
    assert Get(q, Name(OutcomeKey)).Some?;
  }

  /** The numerals the link carries, each only under its condition. A
      `Numeral` is the plain decimal the program writes for a value of
      magnitude below 10^21; from there on `String` and `toFixed` switch to
      exponent notation. */
  lemma EncodedNumerals(s: State)
    ensures var q := StateToQueryParams(s);
      && Get(q, Name(SalaryKey)) == (if s.currentSalary.Some? then Some(Numeral(Round(s.currentSalary.value) as real)) else None)
      && Get(q, Name(TargetKey)) == (if s.outcomeMode == Custom && s.customTarget.Some? then Some(Numeral(Round(s.customTarget.value) as real)) else None)
      && Get(q, Name(MonthsToOutcomeKey)) == Some(Numeral(Round(s.monthsToOutcome) as real))
      && Get(q, Name(MonthsInProgramKey)) == (if s.planType == Monthly then Some(Numeral(Round(s.monthsInProgram) as real)) else None)
      && Get(q, Name(OtherCostsKey)) == (if s.otherCostsGbp > 0.0 then Some(Numeral(Round(s.otherCostsGbp) as real)) else None)
      && Get(q, Name(RateKey)) == (if s.usdToGbp != DefaultUsdToGbp then Some(Numeral(Fixed4(s.usdToGbp))) else None)
  {
  }

  /** How a link opens, for the salaries and the outcome mode. */
  lemma DecodedSalaries(s: State)
    ensures DecodeState(StateToQueryParams(s)).Some?
    ensures var d := DecodeState(StateToQueryParams(s)).value;
      && d.currentSalary == (if s.currentSalary.Some? then Some(Round(s.currentSalary.value) as real) else None)
      && d.outcomeMode == (if s.outcomeMode == Custom && s.customTarget.Some? then Custom else Typical)
      && d.customTarget == (if d.outcomeMode == Custom then Some(Round(s.customTarget.value) as real) else None)
  {
    EncodedLetters(s);
    EncodedNumerals(s);
  }

  /** How a link opens, for the other costs and the exchange rate. */
  lemma DecodedCosts(s: State)
    ensures DecodeState(StateToQueryParams(s)).Some?
    ensures var d := DecodeState(StateToQueryParams(s)).value;
      && d.otherCostsGbp == (if s.otherCostsGbp > 0.0 then Round(s.otherCostsGbp) as real else 0.0)
      && d.usdToGbp == (if s.usdToGbp != DefaultUsdToGbp then Fixed4(s.usdToGbp) else DefaultUsdToGbp)
  {
    EncodedLetters(s);
    EncodedNumerals(s);
  }

  /** How a link opens, for the plan and the two month counts. The program
      agrees for month counts below 10^21; from there on `String` writes
      exponent notation, which `parseInt` reads only up to the exponent. */
  lemma DecodedPlanAndMonths(s: State)
    ensures DecodeState(StateToQueryParams(s)).Some?
    ensures var d := DecodeState(StateToQueryParams(s)).value;
      && d.monthsToOutcome == Clamp(Round(s.monthsToOutcome), 6, 12) as real
      && d.planType == s.planType
      && d.monthsInProgram == (if s.planType == Monthly then Clamp(Round(s.monthsInProgram), 1, 12) as real else 9.0)
  {
    EncodedLetters(s);
    EncodedNumerals(s);
    PlanLetterRoundTrip(s.planType);
    TruncateWhole(Round(s.monthsToOutcome));
    TruncateWhole(Round(s.monthsInProgram));
  }

  /** What a link made from any state, in range or not, opens as: amounts
      rounded to whole pounds, months rounded and then clamped to the slider
      ranges (a 20 month wait comes back as 12), the rate to four places, and
      custom mode only with a target. The program agrees for month counts
      below 10^21; from there on `String` writes exponent notation, which
      `parseInt` reads only up to the exponent. */
  lemma DecodeOfEncode(s: State)
    ensures DecodeState(StateToQueryParams(s)).Some?
    ensures var d := DecodeState(StateToQueryParams(s)).value;
      && d.currentSalary == (if s.currentSalary.Some? then Some(Round(s.currentSalary.value) as real) else None)
      && d.outcomeMode == (if s.outcomeMode == Custom && s.customTarget.Some? then Custom else Typical)
      && d.customTarget == (if d.outcomeMode == Custom then Some(Round(s.customTarget.value) as real) else None)
      && d.monthsToOutcome == Clamp(Round(s.monthsToOutcome), 6, 12) as real
      && d.planType == s.planType
      && d.monthsInProgram == (if s.planType == Monthly then Clamp(Round(s.monthsInProgram), 1, 12) as real else 9.0)
      && d.otherCostsGbp == (if s.otherCostsGbp > 0.0 then Round(s.otherCostsGbp) as real else 0.0)
      && d.usdToGbp == (if s.usdToGbp != DefaultUsdToGbp then Fixed4(s.usdToGbp) else DefaultUsdToGbp)
  {
    DecodedSalaries(s);
    DecodedCosts(s);
    DecodedPlanAndMonths(s);
  }

  /** Opening a shared link restores the state that was shared, up to the
      fields the link deliberately leaves out. */
  lemma RoundTrip(s: State)
    requires Shareable(s)
    ensures DecodeState(StateToQueryParams(s)) == Some(Normalize(s))
  {
    DecodeOfEncode(s);
    RoundInteger(s.monthsToOutcome);
    if s.currentSalary.Some? {
      RoundInteger(s.currentSalary.value);
    }
    if s.outcomeMode == Custom {
      RoundInteger(s.customTarget.value);
    }
    if s.planType == Monthly {
      RoundInteger(s.monthsInProgram);
    }
    RoundInteger(s.otherCostsGbp);
    Fixed4Exact(s.usdToGbp);
  }

  /** A state inside every slider range that a link still does not bring
      back unchanged: on an annual plan the month count is not carried, and
      the link opens with the default of 9 instead of 6. */
  lemma MonthsInProgramNotCarried()
    ensures var s := State(Some(30000.0), Typical, None, 9.0, AnnualUpfront, 6.0, 0.0, DefaultUsdToGbp);
      && DecodeState(StateToQueryParams(s)).Some?
      && DecodeState(StateToQueryParams(s)).value.monthsInProgram == 9.0
      && DecodeState(StateToQueryParams(s)) != Some(s)
  {
    var s := State(Some(30000.0), Typical, None, 9.0, AnnualUpfront, 6.0, 0.0, DefaultUsdToGbp);
    assert IsFourPlaces(DefaultUsdToGbp) by {
      assert DefaultUsdToGbp * 10000.0 == 8000 as real;
    }
    RoundTrip(s);
  }

  /** Sharing a link again after opening it yields the same link. */
  lemma ReshareIsStable(s: State)
    requires Shareable(s)
    ensures DecodeState(StateToQueryParams(s)).Some?
    ensures StateToQueryParams(DecodeState(StateToQueryParams(s)).value) == StateToQueryParams(s)
  {
    RoundTrip(s);
    EncodeIgnoresDroppedFields(s);
  }

  /** The fields `Normalize` resets are exactly those the link leaves out. */
  lemma EncodeIgnoresDroppedFields(s: State)
    ensures StateToQueryParams(Normalize(s)) == StateToQueryParams(s)
  {
    var n := Normalize(s);
    forall k | k in KeyTable
      ensures Emits(n, k) == Emits(s, k)
      ensures Emits(n, k) ==> ValueFor(n, k) == ValueFor(s, k)
    {
    }
    BuildAgrees(n, s, KeyTable);
  }

  /** Opening a shared link reproduces the estimate the sender saw. */
  lemma SharedLinkSameEstimate(s: State)
    requires Shareable(s)
    ensures DecodeState(StateToQueryParams(s)).Some?
    ensures Calculator.Compute(DecodeState(StateToQueryParams(s)).value) == Calculator.Compute(s)
  {
    RoundTrip(s);
    Calculator.ComputeIgnoresUnusedFields(Normalize(s), s);
  }

}

=== FILE: numbers.dfy ===
/** The JavaScript number operations the codec relies on, over exact reals:
    `Math.round`, `parseInt`'s truncation, `toFixed(4)` and the min/max clamp. */
module Numbers {

  predicate IsInteger(x: real) {
    x.Floor as real == x
  }

  /** Distance between two integers. */
  function Dist(a: int, b: int): nat {
    if a <= b then b - a else a - b
  }

  /** `Math.round`: the nearest integer, with halves rounded up. */
  function Round(x: real): (r: int)
    ensures x - 0.5 < r as real <= x + 0.5
  {
    (x + 0.5).Floor
  }

  /** Rounding leaves an integer where it is. */
  lemma RoundInteger(x: real)
    requires IsInteger(x)
    ensures Round(x) as real == x
  {
    var k, r := x.Floor, Round(x);
    assert k as real == x;
    assert -1 < r - k < 1;
  }

  /** `parseInt` applied to a decimal numeral: the fraction is dropped, which
      moves the value toward zero. */
  function Truncate(x: real): (r: int)
    ensures 0.0 <= x ==> r as real <= x < r as real + 1.0
    ensures x < 0.0 ==> r as real - 1.0 < x <= r as real
  {
    if x >= 0.0 then x.Floor else -((-x).Floor)
  }

  /** Truncating a whole number gives that number back. */
  lemma TruncateWhole(i: int)
    ensures Truncate(i as real) == i
  {
  }

  /** Truncating an integer leaves it where it is. */
  lemma TruncateInteger(x: real)
    requires IsInteger(x)
    ensures Truncate(x) as real == x
  {
    if x < 0.0 {
      NegateInteger(x);
    }
  }

  /** A value `toFixed(4)` writes out without loss. */
  predicate IsFourPlaces(x: real) {
    IsInteger(x * 10000.0)
  }

  /** Rounds a non-negative value to four places, ties upward. */
  function RoundFourPlaces(y: real): (r: real)
    requires y >= 0.0
    ensures IsFourPlaces(r)
    ensures -0.00005 < r - y <= 0.00005
  {
    var n := (y * 10000.0 + 0.5).Floor;
    assert (n as real / 10000.0) * 10000.0 == n as real;
    n as real / 10000.0
  }

  /** The value `parseFloat(x.toFixed(4))` reads back: the magnitude is
      rounded to four places, ties away from zero, and the sign is kept. */
  function Fixed4(x: real): (r: real)
    ensures IsFourPlaces(r)
    ensures 0.0 <= x ==> -0.00005 < r - x <= 0.00005
    ensures x < 0.0 ==> -0.00005 <= r - x < 0.00005
  {
    if x < 0.0 then
      var m := RoundFourPlaces(-x);
      NegateInteger(m * 10000.0);
      assert (-m) * 10000.0 == -(m * 10000.0);
      -m
    else
      RoundFourPlaces(x)
  }

  lemma NegateInteger(z: real)
    requires IsInteger(z)
    ensures IsInteger(-z)
  {
    var k := z.Floor;
    assert (-k) as real == -z;
  }

  /** A value already at four places survives `toFixed(4)` unchanged. */
  lemma Fixed4Exact(x: real)
    requires IsFourPlaces(x)
    ensures Fixed4(x) == x
  {
    if x < 0.0 {
      NegateInteger(x * 10000.0);
      assert (-x) * 10000.0 == -(x * 10000.0);
      RoundFourPlacesExact(-x);
    } else {
      RoundFourPlacesExact(x);
    }
  }

  lemma RoundFourPlacesExact(y: real)
    requires y >= 0.0 && IsFourPlaces(y)
    ensures RoundFourPlaces(y) == y
  {
    var k := (y * 10000.0).Floor;
    assert k as real == y * 10000.0;
    var n := (y * 10000.0 + 0.5).Floor;
    assert -1 < n - k < 1;
  }

  /** `Math.min(hi, Math.max(lo, v))`. */
  function Clamp(v: int, lo: int, hi: int): (r: int)
    ensures lo <= hi ==> lo <= r <= hi
    ensures lo <= v <= hi ==> r == v
    ensures lo > hi ==> r == hi
    ensures lo <= hi ==> forall w :: lo <= w <= hi ==> Dist(r, v) <= Dist(w, v)
  {
    var atLeastLo := if v > lo then v else lo;
    if hi < atLeastLo then hi else atLeastLo
  }
}

=== FILE: pricing.dfy ===
/** Programme pricing in US dollars. */
module Pricing {
  import opened Inputs

  const MonthlyPriceUsd: real := 199.0
  const AnnualUpfrontPriceUsd: real := 1999.0
  const InstallmentPriceUsd: real := 799.0
  const InstallmentCount: nat := 3

  /** Price of the programme under `plan`; only the monthly plan looks at how
      many months are taken. */
  function ProgramCostUsd(plan: Plan, monthsInProgram: real): (cost: real)
    ensures plan == Monthly ==> cost == MonthlyPriceUsd * monthsInProgram
    ensures plan == AnnualUpfront ==> cost == 1999.0
    ensures plan == AnnualInstallments ==> cost == 2397.0
    ensures plan == Monthly && monthsInProgram >= 1.0 ==> cost >= MonthlyPriceUsd
  {
    match plan
    case Monthly => MonthlyPriceUsd * monthsInProgram
    case AnnualUpfront => AnnualUpfrontPriceUsd
    case AnnualInstallments => InstallmentPriceUsd * InstallmentCount as real
  }

  /** The cost of the two annual plans does not depend on the month count. */
  lemma CostIgnoresMonthsUnlessMonthly(plan: Plan, m1: real, m2: real)
    requires plan != Monthly
    ensures ProgramCostUsd(plan, m1) == ProgramCostUsd(plan, m2)
  {
  }

  /** The monthly cost grows with the number of months taken. */
  lemma MonthlyCostMonotone(m1: real, m2: real)
    requires m1 <= m2
    ensures ProgramCostUsd(Monthly, m1) <= ProgramCostUsd(Monthly, m2)
  {
    assert MonthlyPriceUsd * (m2 - m1) >= 0.0;
  }

  /** Paying up front is cheaper than instalments, and cheaper than the
      monthly plan once it runs for eleven months or more (ten months is the
      last length at which the monthly plan is cheaper). */
  lemma PlanComparison(m: real)
    ensures ProgramCostUsd(AnnualUpfront, m) < ProgramCostUsd(AnnualInstallments, m)
    ensures m >= 11.0 ==> ProgramCostUsd(AnnualUpfront, m) < ProgramCostUsd(Monthly, m)
    ensures m <= 10.0 ==> ProgramCostUsd(Monthly, m) < ProgramCostUsd(AnnualUpfront, m)
  {
  }
}

=== FILE: query.dfy ===
/** A URL query string as an ordered list of key/value pairs, as
    `URLSearchParams` holds it, and the two number parsers applied to its
    values. */
module Query {
  import opened Wrappers
  import opened Numbers

  /** One query value. `Numeral(v)` is a plain decimal numeral denoting `v`,
      with a digit before any decimal point (what `String(n)` and `toFixed`
      write for a magnitude below 10^21); `Word(text)` is text that neither
      `parseFloat` nor `parseInt` reads as a number, such as the mode and plan
      letters. Text one of them reads but the other does not, like `.5`, is
      outside the model. */
  datatype Param = Numeral(value: real) | Word(text: string)

  type Params = seq<(string, Param)>

  predicate HasKey(q: Params, key: string) {
    exists i :: 0 <= i < |q| && q[i].0 == key
  }

  /** `URLSearchParams.get`: the value of the first pair with this key. */
  function Get(q: Params, key: string): (r: Option<Param>)
    ensures r.Some? <==> HasKey(q, key)
    ensures r.Some? ==> (key, r.value) in q
  {
    if |q| == 0 then None
    else if q[0].0 == key then Some(q[0].1)
    else
      assert forall i :: 1 <= i < |q| ==> q[i] == q[1..][i - 1];
      Get(q[1..], key)
  }

  /** Lookup in a concatenation looks in the first part first. */
  lemma {:induction false} GetAppend(a: Params, b: Params, key: string)
    ensures Get(a + b, key) == if HasKey(a, key) then Get(a, key) else Get(b, key)
  {
    if |a| == 0 {
      assert a + b == b;
    } else if a[0].0 == key {
    } else {
      assert (a + b)[1..] == a[1..] + b;
      GetAppend(a[1..], b, key);
      assert HasKey(a, key) == HasKey(a[1..], key) by {
        if HasKey(a, key) {
          var i :| 0 <= i < |a| && a[i].0 == key;
          assert a[1..][i - 1].0 == key;
        }
        if HasKey(a[1..], key) {
          var i :| 0 <= i < |a[1..]| && a[1..][i].0 == key;
          assert a[i + 1].0 == key;
        }
      }
    }
  }

  /** The calculator's `n`: `parseFloat`, keeping only finite results. An
      absent key and a word both give `None`. */
  function ParseNumber(p: Option<Param>): (r: Option<real>)
    ensures r.Some? <==> p.Some? && p.value.Numeral?
    ensures r.Some? ==> r.value == p.value.value
  {
    match p
    case Some(Numeral(v)) => Some(v)
    case _ => None
  }

  /** `parseInt(String(p), 10)`, keeping only finite results. */
  function ParseInt(p: Option<Param>): (r: Option<int>)
    ensures r.Some? <==> p.Some? && p.value.Numeral?
    ensures r.Some? ==> 0.0 <= p.value.value ==> r.value as real <= p.value.value < r.value as real + 1.0
    ensures r.Some? ==> p.value.value < 0.0 ==> r.value as real - 1.0 < p.value.value <= r.value as real
  {
    match p
    case Some(Numeral(v)) => Some(Truncate(v))
    case _ => None
  }

  /** The two parsers accept the same values, and agree on integers. */
  lemma ParsersAgree(p: Option<Param>)
    ensures ParseInt(p).Some? <==> ParseNumber(p).Some?
    ensures ParseNumber(p).Some? ==> ParseInt(p).value == Truncate(ParseNumber(p).value)
    ensures ParseNumber(p).Some? && IsInteger(ParseNumber(p).value) ==>
              ParseInt(p).value as real == ParseNumber(p).value
  {
    if ParseNumber(p).Some? && IsInteger(ParseNumber(p).value) {
      TruncateInteger(ParseNumber(p).value);
    }
  }
}

=== FILE: wrappers.dfy ===
/** Optional values: the model's stand-in for JavaScript's `null`. */
module Wrappers {

  /** `None` plays the part of `null` (or of a non-finite number, which the
      calculator normalises to `null` before using it). */
  datatype Option<+T> = None | Some(value: T) {

    /** The `??` operator: the carried value, or `default` when there is none. */
    function GetOr(default: T): T {
      match this
      case Some(v) => v
      case None => default
    }
  }
}
